=== FILE: README.md ===
# File converter service: a Dafny model

This project models the conversion service in `app.py`. The service has one endpoint, `POST /convert`. It takes an uploaded file and a target format. It routes the pair to LibreOffice (documents) or FFmpeg (media), runs that program in a fresh working directory, and answers with one of two things:

- the converted file as a download;
- a JSON error with status 400, 500 or 504.

The model covers the logic around the two external programs:

- the two extension lists and the routing precedence (document first, then media, otherwise unsupported);
- how the source extension is read from the upload name, and how the target format is lowered;
- how the output path and the download name are derived, using the POSIX `os.path` rules for `basename`, `splitext` and `join`;
- the diagnostic taken from a failed run: the last line of the stripped stderr-then-stdout text, including the `IndexError` raised when that text is all whitespace;
- the mapping of every outcome to a response (`Orchestrator.Handle`);
- the directories the request creates and removes: the working directory under `/tmp/uploads` and the LibreOffice profile under `/tmp/lo-user`, together with those two parents when `makedirs` has to create them.

Modules:

- `PyStr` (`pystr.dfy`): the Python `str` operations used, with CPython's whitespace and line-boundary sets.
- `PosixPath` (`posixpath.dfy`): `os.path.basename`, `splitext` and `join`.
- `Classifier` (`classifier.dfy`): `DOCUMENT_TYPES`, `MEDIA_TYPES`, the source extension and the route.
- `Adapters` (`adapters.dfy`): what the two adapters compute once their program has run.
- `Orchestrator` (`orchestrator.dfy`): `convert_file` as a function from the request and its environment to a response.
- `Service` (`service.dfy`): a class `Host` holding the set of live directories, whose methods `ConvertDocument` and `Convert` follow `convert_document_libreoffice` and `convert_file` step by step.

Each external effect is an input of the model:

- The outcome of `subprocess.run` is a `ToolRun`: an exit status with stderr and stdout, a timeout, or another exception.
- Whether a path exists is `Env.pathExists`.
- `secure_filename` is the opaque function `Env.secureFilename`.
- The exception from `file.save`, if any, is `Env.saveError`.
- Each `uuid4` value is a parameter. It has UUID text form and is not yet live.
- Whether each `rmtree` succeeds is a boolean parameter.

Two consequences of the code are worth noting:

- An empty target format is not rejected: `convert_file` only checks that the field is present (app.py:129), so an empty target reaches the routing, and the model allows it.
- The working directory can outlive the request: `cleanup` swallows a failed `rmtree` (app.py:120-125). `Service.Host.Convert` states both cases: the directory is gone whenever its removal succeeds.

## Model

| member | source | states |
|---|---|---|
| PyStr.Lower | app.py:133 | The result has the input's length and lowers each character: `A`-`Z` and KELVIN SIGN become lower case, all others stay. |
| PyStr.LowerIdempotent | app.py:139 | Lowering an already lowered string changes nothing. |
| PyStr.LineBreaksAreWhitespace | app.py:67 | Every `splitlines` boundary is whitespace for `strip`. |
| PyStr.PrintableIsNotSpace | app.py:67 | A printable ASCII character other than space is neither whitespace nor a line boundary. |
| PyStr.RFind | app.py:139 | The result is -1 or an index holding `c`, and no `c` follows it. |
| PyStr.RFindIs | app.py:139 | Any index with `c` and no later `c` (or -1 with no `c` at all) is the one `RFind` returns. |
| PyStr.AfterLast | app.py:139 | `rsplit(sep, 1)[-1]`: the result has no `sep`; it is the whole string when there is no `sep`, else the text after an occurrence of `sep`. |
| PyStr.LeadingSpace | app.py:67 | The leading run of whitespace, and the first character after it is not whitespace. |
| PyStr.TrailingSpace | app.py:67 | The trailing run of whitespace, and the character before it is not whitespace. |
| PyStr.Strip | app.py:67 | `strip()`: the result is a slice of the input with only whitespace before and after it. It is empty exactly when the input is all whitespace; otherwise it starts and ends with non-whitespace, so nothing more could be stripped. |
| PyStr.SplitLines | app.py:67 | `splitlines()` is empty exactly for the empty string. |
| PyStr.SplitLinesHaveNoBreaks | app.py:67 | No line returned by `splitlines()` contains a line boundary. |
| PyStr.LastBreakSpec | app.py:67 | `LastBreak` is -1 or the index of a boundary, and no boundary follows it. |
| PyStr.LastBreakIs | app.py:67 | Any index with a boundary and no later boundary (or -1 with none) is the one `LastBreak` returns. |
| PyStr.LastLineIsTail | app.py:67 | For text not ending in a boundary, the last line of `splitlines()` is the non-empty text after the last boundary. |
| PosixPath.Basename | app.py:73 | `os.path.basename` has no slash. |
| PosixPath.BasenameIsLastComponent | app.py:73 | The base name is the suffix after the last slash, or the whole path when there is none. |
| PosixPath.SplitExt | app.py:73 | `splitext` gives back the path when its parts are joined, and the extension is empty or starts with a dot. |
| PosixPath.SplitExtSpec | app.py:73 | There is an extension exactly when the base name has a dot after a non-dot character, so leading dots stay in the root; the extension holds no further dot and no slash. |
| PosixPath.ExtensionAfterLastDot | app.py:162-163 | For a slash-free name with an extension, `splitext` cuts at the same dot as `rsplit('.', 1)`. |
| PosixPath.Root | app.py:162 | The root is a prefix of the path, followed by a dot when it is shorter. |
| PosixPath.Join | app.py:75 | `join(a, b)` is `b` when `b` is absolute. Otherwise it is `a`, then one slash unless `a` is empty or already ends with one, then `b`. A slash-free `b` is the base name of the result. |
| Classifier.ListedIsMember | app.py:148-149 | The list search used by the routing finds exactly the members of the list. |
| Classifier.TypeListsDisjoint | app.py:26-27 | No extension is both a document type and a media type. |
| Classifier.ShortNamesUnlisted | app.py:26-27 | No listed type has fewer than three characters. |
| Classifier.SourceExtension | app.py:139 | The source extension is lower case and has no dot. It is the whole lowered name when there is no dot, else the lowered text after some dot. |
| Classifier.DocumentTakesPrecedence | app.py:148-152 | `RouteFor` chooses LibreOffice exactly when either side is a document type, even when the other side is a media type. |
| Classifier.MediaOnlyWithoutDocument | app.py:149-154 | `RouteFor` chooses FFmpeg exactly when neither side is a document type and some side is a media type. |
| Classifier.UnsupportedIffUnlisted | app.py:148-156 | `RouteFor` finds a pair unsupported exactly when neither side is in either list. |
| Classifier.RouteSymmetric | app.py:148-149 | Swapping source and target does not change the route. |
| Classifier.MediaToDocumentGoesToLibreOffice | app.py:148-152 | `jpg` to `pdf` goes to LibreOffice although `jpg` is a media type. |
| Adapters.LastErrorLine | app.py:65-67 | Empty output gives the fixed "Unknown ... Error" text. Non-empty all-whitespace output raises `IndexError`. Otherwise the result is the non-empty text after the last boundary of the stripped output; it has no boundary and ends with a non-whitespace character. |
| Adapters.OutputPath | app.py:73-75 | The returned path is the output directory followed, directly or after one slash, by the file name: the input's base name without its extension, a dot, then the target. That name is also the path's base name. |
| Adapters.OutputPathRoundTrip | app.py:80-82 | `splitext` of the output file name gives back the input's root and `.` plus the target, for a target without dot or slash and an input base name that is not all dots. |
| Adapters.ConcludeContract | app.py:51-75 | `Conclude`, the outcome both adapters share (`ConvertMedia` is `Conclude` for FFmpeg): an adapter returns a path exactly on exit status 0, and it is the expected output path. It raises `TimeoutExpired` exactly on a timeout. Any other exception from running the program propagates with its own text. On a non-zero exit it raises the tool's prefix with the diagnostic, or `IndexError` for all-whitespace output. |
| Adapters.FailedRunOutcome | app.py:101-105 | A failed run with visible output raises the tool's prefix followed by the last line of the stripped output. |
| Adapters.AdaptersAgreeOnPath | app.py:80-82 | For the same input, directory, target and run, both adapters succeed together and return the same path. |
| Adapters.LastLineExample | app.py:67 | The output `"line1\nline2\n\nline3"` yields `line3`. |
| Orchestrator.UnselectedResponse | app.py:129-136 | A missing part gives 400 "Missing file or target format"; an empty file name gives 400 "No selected file". |
| Orchestrator.SaveErrorResponse | app.py:140-142 | An exception from saving the upload gives 500 with "Conversion failed: " and its text. |
| Orchestrator.UnsupportedResponse | app.py:155-156 | An unsupported pair gives 400 naming the source extension and the target. |
| Orchestrator.NotInvokedResponse | app.py:127-156 | Without a started tool the response is JSON: a 400, or the 500 of a failed save. |
| Orchestrator.CaughtOutcome | app.py:159-182 | A timeout gives 504. Another exception gives 500 with its text. A non-empty existing path is sent under the download name. A missing output gives the fixed 500. |
| Orchestrator.InvokedResponse | app.py:151-154 | Once a tool is started, the response is its adapter's outcome, checked for the file's existence, then caught. |
| Orchestrator.RunMattersIff | app.py:148-154 | A program is started exactly when `Invoked` names a tool. Without one, the response is the same whatever the run would have done. With one, a run that times out turns the response into a 504. |
| Orchestrator.OtherExceptionMessage | app.py:180-182 | When a started program fails with an exception other than a timeout, the response is 500 with "Conversion failed: " and that exception's text. |
| Orchestrator.StatusCodes | app.py:127-182 | Every response has status 200, 400, 500 or 504. |
| Orchestrator.BadRequestIff | app.py:129-156 | `Handle` (through `Attempt` and `Catch`) gives status 400 exactly for a missing part, an empty file name, or a saved upload with an unsupported pair. Each case carries its own message. |
| Orchestrator.TimeoutIff | app.py:177-179 | `Handle` gives status 504 exactly when a tool was started and timed out, always with the timeout message. |
| Orchestrator.AttachmentIff | app.py:159-171 | `Handle` sends the file (through `Deliver`) exactly when a tool was started, exited with 0, and the expected output path exists. It is sent from that path under `DownloadName`. |
| Orchestrator.ServerErrorsSayConversionFailed | app.py:173-182 | Every 500 response's text starts with "Conversion failed". |
| Orchestrator.ToolFailureMessage | app.py:180-182 | A non-zero exit with visible output gives 500 with the handler's prefix, the tool's prefix, then the last line of the stripped output. |
| Orchestrator.SilentFailureMessage | app.py:180-182 | A non-zero exit with no output gives 500 with the handler's prefix, the tool's prefix and "Unknown ... Error". |
| Orchestrator.WhitespaceOutputMessage | app.py:67 | A non-zero exit whose output is all whitespace gives 500 with "Conversion failed: list index out of range". |
| Orchestrator.DownloadNameIndependent | app.py:162-169 | When two runs of the same request both send a file, they use the same download name, whatever the environment and working directory. |
| Orchestrator.DownloadNameReplacesExtension | app.py:162-163 | For a slash-free name with an extension, `DownloadName` is the name with the text after its last dot replaced by the target. |
| Orchestrator.ListedRequestsInvokeATool | app.py:148-156 | A validated, saved request starts a tool exactly when its extension or target is in either list. |
| Orchestrator.MissingFileExample | app.py:129-130 | A request without a file part gets 400 "Missing file or target format". |
| Orchestrator.UnsupportedPairExample | app.py:155-156 | `backup.7z` to `gz` gets 400 naming `.7z` and `.gz`. |
| Orchestrator.DocumentExample | app.py:148-171 | `report.docx` to `PDF` goes to LibreOffice and, when it succeeds, is sent as `report.pdf`. |
| Service.WorkDirShape | app.py:114-115 | For a UUID, the working directory is `/tmp/uploads/` followed by the UUID. |
| Service.DirectoriesDistinct | app.py:114-116 | Different UUIDs give different working directories. No working directory, profile directory, `/tmp/uploads` or `/tmp/lo-user` is another of them, and `/tmp/uploads` is a proper prefix of every working directory. |
| Service.Host.MakeDirs | app.py:33 | For a directory directly inside `parent`, `makedirs` adds the directory and its parent to the live set. It logs the creation of the parent when it was missing, then that of the directory when it was missing. |
| Service.Host.RemoveTree | app.py:120-122 | A successful `rmtree` removes the directory from the live set and logs it; a failed one changes nothing. |
| Service.Host.ConvertDocument | app.py:29-75 | The LibreOffice adapter returns the adapter outcome `Conclude`. Its profile directory is created and then removed before the exit status is read, on every outcome. `/tmp/lo-user` is created when it is missing and stays afterwards; otherwise the live set is unchanged unless the profile's removal fails. |
| Service.Host.Serve | app.py:127-182 | The `try` block returns `Handle`'s response. It touches directories only when LibreOffice is started: then `/tmp/lo-user` is live afterwards, and the profile directory is created, then removed unless its removal fails, in which case it stays live. |
| Service.Host.Convert | app.py:112-184 | `convert_file` returns `Handle`'s response for its working directory. It creates that directory before any check and removes it in `finally` on every path. `/tmp/uploads` is created if it is missing, and so is `/tmp/lo-user` for a LibreOffice conversion; both stay. When both removals succeed, the live set is what it was plus those parents, so exactly what it was when they were already there. |

## Left out

- PyStr.Lower: lowers only `A`-`Z` and KELVIN SIGN (U+212A, which Python lowers to `k`). Other non-ASCII letters are left unchanged, because only these can turn a name into one of the listed ASCII extensions. The routing is therefore exact, but a source extension or target with other non-ASCII capitals keeps them in the model. That text then differs from the program's wherever the lowered text appears verbatim: the unsupported-pair message, the output path and the download name. For example, the target `PDFÉ` gives `pdfÉ` in the model and `pdfé` in the program.
- Decoding of the programs' output: `subprocess.run(..., text=True)` decodes bytes; the model takes the decoded text as given.
- The program invocations themselves: the command lists, the 240 s and 300 s timeouts, and the programs' effect on disk. A run is an input value, and whether its output file exists is `Env.pathExists`.
- `werkzeug.utils.secure_filename` is not part of this model; it is an opaque function of the upload name.
- `file.save`: only whether it raises is modelled, not the bytes written.
- `os.makedirs` failures: creating a directory always succeeds in the model.
- Service.Host.MakeDirs: creates at most the immediate parent of the directory; `/tmp` itself is taken to exist.
- `shutil.rmtree` partial failures: a removal either removes the whole tree or leaves it live.
- The streaming of the sent file by `send_file` after the working directory is removed in `finally`: the model's response only names the path.
- `uuid.uuid4` randomness and uniqueness across concurrent requests: each identifier is a parameter in UUID text form that is not yet live.
- Concurrency between requests, Flask and CORS plumbing, logging, and timing.
- The module-level creation of `/tmp/uploads` (app.py:23) and the `__main__` server start (app.py:186-188).

=== FILE: adapters.dfy ===
/**
 * What the two tool adapters, `convert_document_libreoffice` and
 * `convert_media_ffmpeg`, compute once their external program has run:
 * the expected output path, the diagnostic taken from a failed run's
 * output, and the value returned or the exception raised.
 *
 * Running the program is not modelled; its effect is a `ToolRun` value.
 */
module Adapters {
  import opened PyStr
  import opened PosixPath
  import opened Classifier

  /** How one `subprocess.run` call ended, with its captured output already decoded. */
  datatype ToolRun =
    | Exited(code: int, stderr: string, stdout: string)
    | TimedOut                  // `subprocess.TimeoutExpired`
    | Failed(message: string)   // any other exception, e.g. the program is not installed

  /** The exceptions an adapter lets escape, as the request handler tells them apart. */
  datatype Raised = TimeoutExpired | Error(message: string)

  /** A Python call that either returns a value or raises. */
  datatype Result<+T> = Ok(value: T) | Err(exc: Raised)

  /** What `str(IndexError)` says when `[][-1]` is evaluated. */
  const IndexErrorMessage: string := "list index out of range"

  function UnknownError(tool: Tool): string
  {
    match tool
    case LibreOffice => "Unknown LibreOffice Error"
    case FFmpeg => "Unknown FFmpeg Error"
  }

  /** The text each adapter puts before the extracted diagnostic in the exception it raises. */
  function FailurePrefix(tool: Tool): string
  {
    match tool
    case LibreOffice => "LibreOffice conversion failed. Detail: "
    case FFmpeg => "FFmpeg conversion failed. Error: "
  }

  /**
   * `output.strip().splitlines()[-1] if output else unknown`: the last line of
   * the stripped output, the fixed `unknown` text for empty output, and an
   * `IndexError` for output that is all whitespace.
   */
  function LastErrorLine(output: string, unknown: string): (r: Result<string>)
    ensures output == [] ==> r == Ok(unknown)
    ensures output != [] && AllSpace(output) ==> r == Err(Error(IndexErrorMessage))
    ensures !AllSpace(output) ==>
              var s := Strip(output);
              && r.Ok? && r.value != []
              && r.value == s[LastBreak(s) + 1..]
              && r.value[|r.value| - 1] == s[|s| - 1] && !IsSpace(s[|s| - 1])
              && NoBreaks(r.value)
  {
    if output == [] then Ok(unknown)
    else
      var lines := SplitLines(Strip(output));
      if lines == [] then
        assert AllSpace(output);
        Err(Error(IndexErrorMessage))
      else
        LastLineFacts(output);
        Ok(lines[|lines| - 1])
  }

  /** The last line of stripped output that is not all whitespace: a non-empty tail of it without line breaks. */
  lemma LastLineFacts(output: string)
    requires !AllSpace(output)
    ensures var s, lines := Strip(output), SplitLines(Strip(output));
            var last := s[LastBreak(s) + 1..];
            && LastBreak(s) + 1 < |s|
            && lines != [] && lines[|lines| - 1] == last
            && last[|last| - 1] == s[|s| - 1] && !IsSpace(s[|s| - 1])
            && NoBreaks(last)
  {
    var s := Strip(output);
    LineBreaksAreWhitespace(s[|s| - 1]);
    LastLineIsTail(s);
    SplitLinesHaveNoBreaks(s);
    var lines := SplitLines(s);
    assert lines[|lines| - 1] in lines;
  }

  /** The path both adapters return: `<output_dir>/<input base name without extension>.<target>`. */
  function OutputPath(inputPath: string, outputDir: string, targetFormat: string): (p: string)
    ensures |outputDir| < |p| && p[..|outputDir|] == outputDir
    ensures var name := Root(Basename(inputPath)) + "." + targetFormat;
            p[|outputDir|..] == name || p[|outputDir|..] == "/" + name
    ensures '/' !in targetFormat ==>
              Basename(p) == Root(Basename(inputPath)) + "." + targetFormat
  {
    var name := Root(Basename(inputPath)) + "." + targetFormat;
    OutputNameFacts(inputPath, targetFormat);
    JoinedAfterDir(outputDir, name);
    Join(outputDir, name)
  }

  /** The output file name never starts with a slash, and has none when the target has none. */
  lemma OutputNameFacts(inputPath: string, targetFormat: string)
    ensures var name := Root(Basename(inputPath)) + "." + targetFormat;
            name[0] != '/' && ('/' !in targetFormat ==> '/' !in name)
  {
    var b := Basename(inputPath);
    var r := Root(b);
    var name := r + "." + targetFormat;
    if r != [] { assert name[0] == r[0] == b[0]; }
    if '/' !in targetFormat {
      forall i | 0 <= i < |name| ensures name[i] != '/' {
        if i < |r| { assert name[i] == r[i] == b[i]; }
        else if i > |r| { assert name[i] == targetFormat[i - |r| - 1]; }
      }
    }
  }

  /**
   * Splitting the returned path again gives back the input's stem and the
   * target as its extension, when the target has no dot or slash and the
   * input's base name is not made of dots alone.
   */
  lemma OutputPathRoundTrip(inputPath: string, outputDir: string, targetFormat: string)
    requires '/' !in targetFormat && '.' !in targetFormat
    requires exists i :: 0 <= i < |Basename(inputPath)| && Basename(inputPath)[i] != '.'
    ensures SplitExt(Basename(OutputPath(inputPath, outputDir, targetFormat)))
            == (Root(Basename(inputPath)), "." + targetFormat)
  {
    var b := Basename(inputPath);
    var stem := Root(b);
    var name := stem + "." + targetFormat;
    assert Basename(OutputPath(inputPath, outputDir, targetFormat)) == name;
    OutputNameFacts(inputPath, targetFormat);
    var x := StemHasNonDot(b);
    assert stem[x] == b[x];
    SplitAtAddedDot(stem, targetFormat, x);
  }

  /**
   * A name made of a stem with a non-dot character at `x`, a dot, and a
   * suffix without dots splits back into that stem and the dotted suffix.
   */
  lemma SplitAtAddedDot(stem: string, suffix: string, x: nat)
    requires '/' !in stem + "." + suffix && '.' !in suffix
    requires x < |stem| && stem[x] != '.'
    ensures SplitExt(stem + "." + suffix) == (stem, "." + suffix)
  {
    var name := stem + "." + suffix;
    RFindIs(name, '/', -1);
    forall k | |stem| < k < |name| ensures name[k] != '.' {
      assert name[k] == suffix[k - |stem| - 1];
    }
    RFindIs(name, '.', |stem|);
    assert name[x] == stem[x];
    assert NonDotBetween(name, -1, |stem|);
    assert name[..|stem|] == stem && name[|stem|..] == "." + suffix;
  }

  /** A name without a slash is its own base name. */
  lemma BasenameOfBasename(b: string)
    requires '/' !in b
    ensures Basename(b) == b
  {
  }

  /** A name that is not all dots keeps a non-dot character in its root. */
  lemma StemHasNonDot(b: string) returns (x: nat)
    requires '/' !in b
    requires exists i :: 0 <= i < |b| && b[i] != '.'
    ensures x < |Root(b)| && b[x] != '.'
  {
    var stem := Root(b);
    if |stem| == |b| {
      x :| 0 <= x < |b| && b[x] != '.';
    } else {
      BasenameOfBasename(b);
      SplitExtSpec(b);
      var ext := SplitExt(b).1;
      assert ext == b[|stem|..];
      var y;
      x, y :| 0 <= x < y < |b| && b[x] != '.' && b[y] == '.';
    }
  }

  /**
   * How an adapter ends once its program has run: a timeout or another
   * exception propagates, a non-zero exit raises an exception carrying the
   * extracted diagnostic, and a zero exit returns the expected output path.
   */
  function Conclude(tool: Tool, run: ToolRun, outputPath: string): Result<string>
  {
    match run
    case TimedOut => Err(TimeoutExpired)
    case Failed(message) => Err(Error(message))
    case Exited(code, stderr, stdout) =>
      if code != 0 then
        match LastErrorLine(stderr + stdout, UnknownError(tool))
        case Ok(line) => Err(Error(FailurePrefix(tool) + line))
        case Err(exc) => Err(exc)
      else Ok(outputPath)
  }

  /** `convert_media_ffmpeg`: no state of its own, so a function of the run's outcome. */
  function ConvertMedia(inputPath: string, outputDir: string, targetFormat: string, run: ToolRun): Result<string>
  {
    Conclude(FFmpeg, run, OutputPath(inputPath, outputDir, targetFormat))
  }

  /**
   * The adapter contract: a path is returned exactly on a zero exit status,
   * and it is the expected output path; a timeout and only a timeout raises
   * `TimeoutExpired`; a non-zero exit raises the tool's prefix followed by
   * the diagnostic, or the `IndexError` when the output is all whitespace.
   */
  lemma ConcludeContract(tool: Tool, run: ToolRun, outputPath: string)
    ensures var r := Conclude(tool, run, outputPath);
            && (r.Ok? <==> run.Exited? && run.code == 0)
            && (r.Ok? ==> r.value == outputPath)
            && (r == Err(TimeoutExpired) <==> run.TimedOut?)
            && (run.Failed? ==> r == Err(Error(run.message)))
            && (run.Exited? && run.code != 0 ==>
                  var output := run.stderr + run.stdout;
                  && (output == [] ==> r == Err(Error(FailurePrefix(tool) + UnknownError(tool))))
                  && (output != [] && AllSpace(output) ==> r == Err(Error(IndexErrorMessage)))
                  && (!AllSpace(output) ==>
                        r == Err(Error(FailurePrefix(tool) + LastErrorLine(output, UnknownError(tool)).value))))
  {
  }

  /** A failed run with visible output raises the tool's prefix followed by the last line of the stripped output. */
  lemma FailedRunOutcome(tool: Tool, run: ToolRun, outputPath: string)
    requires run.Exited? && run.code != 0 && !AllSpace(run.stderr + run.stdout)
    ensures var s := Strip(run.stderr + run.stdout);
            Conclude(tool, run, outputPath) == Err(Error(FailurePrefix(tool) + s[LastBreak(s) + 1..]))
  {
  }

  /** For the same input, directory, target and run, both adapters return the same path. */
  lemma AdaptersAgreeOnPath(inputPath: string, outputDir: string, targetFormat: string, run: ToolRun)
    ensures var path := OutputPath(inputPath, outputDir, targetFormat);
            var lo, ff := Conclude(LibreOffice, run, path), ConvertMedia(inputPath, outputDir, targetFormat, run);
            lo.Ok? == ff.Ok? && (lo.Ok? ==> lo.value == ff.value)
  {
  }

  /** The output "line1\nline2\n\nline3" reports its last line, "line3". */
  lemma LastLineExample()
    ensures LastErrorLine("line1\nline2\n\nline3", "Unknown LibreOffice Error") == Ok("line3")
  {
    var output := "line1\nline2\n\nline3";
    PrintableIsNotSpace('l');
    PrintableIsNotSpace('3');
    assert Strip(output) == output by {
      assert LeadingSpace(output) == 0 && TrailingSpace(output) == 0;
    }
    assert LastBreak(output) == 12 by {
      assert output[12] == '\n' && At(LineBreakRanges, 0) == ('\n', '\r');
      InRangesAt('\n', LineBreakRanges, 0);
      forall k | 13 <= k < |output| ensures !IsLineBreak(output[k]) {
        PrintableIsNotSpace(output[k]);
      }
      LastBreakIs(output, 12);
    }
    assert output[13..] == "line3";
  }
}

=== FILE: classifier.dfy ===
/**
 * The format classifier of the `/convert` handler: the two fixed extension
 * lists, the source extension derived from the upload's name, and the
 * routing of a (source extension, target format) pair to an external tool.
 */
module Classifier {
  import opened PyStr

  /** `DOCUMENT_TYPES`: office, text, spreadsheet and presentation formats, handled by LibreOffice. */
  const DocumentTypes: seq<string> :=
    ["doc", "docx", "xls", "xlsx", "ppt", "pptx", "odt", "pdf", "csv", "txt", "html", "rtf"]

  /** `MEDIA_TYPES`: audio, video and image formats, handled by FFmpeg. */
  const MediaTypes: seq<string> :=
    ["mp3", "mp4", "webm", "wav", "flac", "avi", "mov", "mkv", "gif", "jpg", "png", "mpeg",
     "3gp", "aac", "wma", "aiff", "ogg", "webp", "tiff", "ico", "bmp", "psd", "raw", "heic"]

  /** The two external programs a conversion can be dispatched to. */
  datatype Tool = LibreOffice | FFmpeg

  /** The classifier's verdict on a pair. */
  datatype Route = Use(tool: Tool) | Unsupported

  /** `t in types`, searched from the front as Python's `in` on a list does. */
  predicate Listed(t: string, types: seq<string>)
  {
    types != [] && (types[0] == t || Listed(t, types[1..]))
  }

  /** The search finds exactly the members of the list. */
  lemma {:induction false} ListedIsMember(t: string, types: seq<string>)
    ensures Listed(t, types) <==> t in types
  {
    if types != [] {
      ListedIsMember(t, types[1..]);
      assert types == [types[0]] + types[1..];
    }
  }

  /** No extension is listed as both a document and a media type. */
  lemma TypeListsDisjoint()
    ensures forall t :: t in DocumentTypes ==> t !in MediaTypes
  {
    forall t | t in DocumentTypes ensures t !in MediaTypes {
      var i :| 0 <= i < |DocumentTypes| && DocumentTypes[i] == t;
      if i < 6 { OfficeTypeNotMedia(i); } else { OtherDocumentTypeNotMedia(i); }
    }
  }

  /** The Microsoft Office formats, the first six document types, are not media types. */
  lemma OfficeTypeNotMedia(i: nat)
    requires i < 6
    ensures DocumentTypes[i] !in MediaTypes
  {
  }

  /** Nor are the remaining six document types. */
  lemma OtherDocumentTypeNotMedia(i: nat)
    requires 6 <= i < |DocumentTypes|
    ensures DocumentTypes[i] !in MediaTypes
  {
  }

  /**
   * `filename.rsplit('.', 1)[-1].lower()`: the lowered text after the last
   * dot of the upload's name, or the whole lowered name when it has no dot.
   */
  function SourceExtension(filename: string): (ext: string)
    ensures '.' !in ext
    ensures Lower(ext) == ext
    ensures '.' !in filename ==> ext == Lower(filename)
    ensures '.' in filename ==>
              exists i :: 0 <= i < |filename| && filename[i] == '.' && ext == Lower(filename[i + 1..])
  {
    var tail := AfterLast(filename, '.');
    LowerIdempotent(tail);
    assert forall k :: 0 <= k < |tail| ==> Lower(tail)[k] == LowerChar(tail[k]) != '.';
    Lower(tail)
  }

  /**
   * The routing of `convert_file`: LibreOffice when either side is a document
   * type, else FFmpeg when either side is a media type, else unsupported.
   */
  function RouteFor(ext: string, target: string): Route
  {
    if Listed(ext, DocumentTypes) || Listed(target, DocumentTypes) then Use(LibreOffice)
    else if Listed(ext, MediaTypes) || Listed(target, MediaTypes) then Use(FFmpeg)
    else Unsupported
  }

  /** A document type on either side wins, even when the other side is a media type. */
  lemma DocumentTakesPrecedence(ext: string, target: string)
    ensures RouteFor(ext, target) == Use(LibreOffice) <==> ext in DocumentTypes || target in DocumentTypes
  {
    ListedIsMember(ext, DocumentTypes);
    ListedIsMember(target, DocumentTypes);
    ListedIsMember(ext, MediaTypes);
    ListedIsMember(target, MediaTypes);
  }

  /** FFmpeg is chosen exactly when no side is a document type and some side is a media type. */
  lemma MediaOnlyWithoutDocument(ext: string, target: string)
    ensures RouteFor(ext, target) == Use(FFmpeg) <==>
              ext !in DocumentTypes && target !in DocumentTypes && (ext in MediaTypes || target in MediaTypes)
  {
    ListedIsMember(ext, DocumentTypes);
    ListedIsMember(target, DocumentTypes);
    ListedIsMember(ext, MediaTypes);
    ListedIsMember(target, MediaTypes);
  }

  /** A pair is unsupported exactly when neither side is listed at all. */
  lemma UnsupportedIffUnlisted(ext: string, target: string)
    ensures RouteFor(ext, target) == Unsupported <==>
              ext !in DocumentTypes && ext !in MediaTypes && target !in DocumentTypes && target !in MediaTypes
  {
    ListedIsMember(ext, DocumentTypes);
    ListedIsMember(target, DocumentTypes);
    ListedIsMember(ext, MediaTypes);
    ListedIsMember(target, MediaTypes);
  }

  /** Every listed type has at least three characters, so a shorter name is never listed. */
  lemma ShortNamesUnlisted(t: string)
    requires |t| < 3
    ensures t !in DocumentTypes && t !in MediaTypes
  {
  }

  /** Which side names a type does not matter: swapping source and target keeps the route. */
  lemma RouteSymmetric(ext: string, target: string)
    ensures RouteFor(ext, target) == RouteFor(target, ext)
  {
  }

  /** A JPEG image converted to PDF goes to LibreOffice, not FFmpeg. */
  lemma MediaToDocumentGoesToLibreOffice()
    ensures "jpg" in MediaTypes && RouteFor("jpg", "pdf") == Use(LibreOffice)
  {
    assert DocumentTypes[7] == "pdf";
    ListedIsMember("pdf", DocumentTypes);
  }
}

=== FILE: orchestrator.dfy ===
/**
 * The `/convert` request handler as a function of the request and of what
 * its environment does: validation, the saved upload's path, the routing,
 * the adapter's outcome, the existence check on the converted file, and
 * the mapping of the exceptions it catches to JSON error responses.
 *
 * The working directory and the cleanup of the file system are the
 * business of the `Service` module; this module says which response a
 * request gets.
 */
module Orchestrator {
  import opened PyStr
  import opened PosixPath
  import opened Classifier
  import opened Adapters

  datatype Option<T> = None | Some(value: T)

  /** An uploaded file part, known by the name the client gave it. */
  datatype Upload = Upload(filename: string)

  /** The multipart request: the `file` part and the `target_format` form field, each possibly absent. */
  datatype Request = Request(file: Option<Upload>, targetFormat: Option<string>)

  /**
   * What the handler learns from outside: `secure_filename` as an opaque
   * function, the error `file.save` raises if any, how the conversion
   * program's run ends, and which paths exist after it.
   */
  datatype Env = Env(
    secureFilename: string -> string,
    saveError: Option<string>,
    run: ToolRun,
    pathExists: string -> bool)

  /** A JSON error body with its status code, or the converted file sent as a download (status 200). */
  datatype Response =
    | Json(status: int, error: string)
    | Attachment(path: string, downloadName: string)
  {
    function Status(): int
    {
      if Attachment? then 200 else status
    }
  }

  const MissingPartsMessage: string := "Missing file or target format"
  const NoFileMessage: string := "No selected file"
  const TimeoutMessage: string := "Conversion timed out on the server. Try a smaller file."
  /** The words both kinds of 500 response start with. */
  const ConversionFailed: string := "Conversion failed"
  const MissingOutputMessage: string :=
    ConversionFailed + " or output file not found. Check server logs for exact LibreOffice error."
  const FailedPrefix: string := ConversionFailed + ": "

  function UnsupportedMessage(ext: string, target: string): string
  {
    "Unsupported conversion pair: ." + ext + " to ." + target + "."
  }

  /** The request passes both presence checks and names a file. */
  predicate Selected(req: Request)
  {
    req.file.Some? && req.targetFormat.Some? && req.file.value.filename != []
  }

  /** The lowered target format of a request that has one. */
  function Target(req: Request): string
    requires req.targetFormat.Some?
  {
    Lower(req.targetFormat.value)
  }

  /** Where the upload is saved: the secured name inside the working directory. */
  function InputPath(req: Request, env: Env, work: string): string
    requires req.file.Some?
  {
    Join(work, env.secureFilename(req.file.value.filename))
  }

  /** The name the converted file is offered under: the client's name with the target as extension. */
  function DownloadName(req: Request): string
    requires req.file.Some? && req.targetFormat.Some?
  {
    Root(req.file.value.filename) + "." + Target(req)
  }

  /** The tool the handler calls, if it gets that far: after validation, a successful save and a supported route. */
  function Invoked(req: Request, env: Env): (t: Option<Tool>)
    ensures t.Some? ==> Selected(req) && env.saveError.None?
    ensures t.Some? <==> Selected(req) && env.saveError.None? && RouteFor(SourceExtension(req.file.value.filename), Target(req)).Use?
  {
    if !Selected(req) || env.saveError.Some? then None
    else
      match RouteFor(SourceExtension(req.file.value.filename), Target(req))
      case Use(tool) => Some(tool)
      case Unsupported => None
  }

  /**
   * The adapter the route selects, run on the saved upload with the working
   * directory as output directory. The LibreOffice adapter's file system
   * effects are modelled in `Service.Host.ConvertDocument`; its result is this.
   */
  function RunAdapter(tool: Tool, run: ToolRun, input: string, work: string, target: string): Result<string>
  {
    match tool
    case LibreOffice => Conclude(LibreOffice, run, OutputPath(input, work, target))
    case FFmpeg => ConvertMedia(input, work, target, run)
  }

  /** Step 3 of the handler: send the converted file if the returned path names an existing file. */
  function Deliver(converted: Result<string>, downloadName: string, pathExists: string -> bool): Result<Response>
  {
    match converted
    case Err(exc) => Err(exc)
    case Ok(path) =>
      if path != [] && pathExists(path) then Ok(Attachment(path, downloadName))
      else Ok(Json(500, MissingOutputMessage))
  }

  /**
   * The body of the handler's `try`: a response it returns, or the exception
   * that escapes it (from `file.save` or from an adapter).
   */
  function Attempt(req: Request, env: Env, work: string): Result<Response>
  {
    if req.file.None? || req.targetFormat.None? then Ok(Json(400, MissingPartsMessage))
    else if req.file.value.filename == [] then Ok(Json(400, NoFileMessage))
    else if env.saveError.Some? then Err(Error(env.saveError.value))
    else
      var ext := SourceExtension(req.file.value.filename);
      match RouteFor(ext, Target(req))
      case Unsupported => Ok(Json(400, UnsupportedMessage(ext, Target(req))))
      case Use(tool) =>
        Deliver(RunAdapter(tool, env.run, InputPath(req, env, work), work, Target(req)), DownloadName(req), env.pathExists)
  }

  /** The handler's `except` clauses: a timeout is a 504, any other exception a 500 carrying its text. */
  function Catch(attempt: Result<Response>): Response
  {
    match attempt
    case Ok(response) => response
    case Err(TimeoutExpired) => Json(504, TimeoutMessage)
    case Err(Error(message)) => Json(500, FailedPrefix + message)
  }

  /** `convert_file`, for a request served in the working directory `work`. */
  function Handle(req: Request, env: Env, work: string): Response
  {
    Catch(Attempt(req, env, work))
  }

  /** A request that fails validation gets a 400 saying which check it failed. */
  lemma UnselectedResponse(req: Request, env: Env, work: string)
    requires !Selected(req)
    ensures req.file.None? || req.targetFormat.None? ==> Handle(req, env, work) == Json(400, MissingPartsMessage)
    ensures req.file.Some? && req.targetFormat.Some? ==> Handle(req, env, work) == Json(400, NoFileMessage)
  {
  }

  /** A failed save is reported as a 500 carrying the exception's text. */
  lemma SaveErrorResponse(req: Request, env: Env, work: string)
    requires Selected(req) && env.saveError.Some?
    ensures Handle(req, env, work) == Json(500, FailedPrefix + env.saveError.value)
  {
  }

  /** A saved upload whose pair no tool handles gets a 400 naming both formats. */
  lemma UnsupportedResponse(req: Request, env: Env, work: string)
    requires Selected(req) && env.saveError.None?
    requires RouteFor(SourceExtension(req.file.value.filename), Target(req)) == Unsupported
    ensures Handle(req, env, work) == Json(400, UnsupportedMessage(SourceExtension(req.file.value.filename), Target(req)))
  {
  }

  /** Without a tool started, the response is a 400, or the 500 of a failed save. */
  lemma NotInvokedResponse(req: Request, env: Env, work: string)
    requires Invoked(req, env).None?
    ensures var r := Handle(req, env, work);
            && r.Json?
            && (r.status == 400 || (Selected(req) && env.saveError.Some? && r == Json(500, FailedPrefix + env.saveError.value)))
            && (r.status == 400 <==> !Selected(req) || env.saveError.None?)
  {
    if !Selected(req) {
      UnselectedResponse(req, env, work);
    } else if env.saveError.Some? {
      SaveErrorResponse(req, env, work);
    } else {
      UnsupportedResponse(req, env, work);
    }
  }

  /** Once a tool is started, the response is the adapter's outcome, delivered and caught. */
  lemma InvokedResponse(req: Request, env: Env, work: string, tool: Tool)
    requires Invoked(req, env) == Some(tool)
    ensures Handle(req, env, work)
            == Catch(Deliver(Conclude(tool, env.run, OutputPath(InputPath(req, env, work), work, Target(req))), DownloadName(req), env.pathExists))
  {
    assert RouteFor(SourceExtension(req.file.value.filename), Target(req)) == Use(tool);
    assert Attempt(req, env, work)
           == Deliver(RunAdapter(tool, env.run, InputPath(req, env, work), work, Target(req)), DownloadName(req), env.pathExists);
  }

  /** How an adapter's outcome `c` becomes the response. */
  lemma CaughtOutcome(c: Result<string>, name: string, pathExists: string -> bool)
    ensures var r := Catch(Deliver(c, name, pathExists));
            && (c == Err(TimeoutExpired) ==> r == Json(504, TimeoutMessage))
            && (c.Err? && c.exc.Error? ==> r == Json(500, FailedPrefix + c.exc.message))
            && (c.Ok? && c.value != [] && pathExists(c.value) ==> r == Attachment(c.value, name))
            && (c.Ok? && !(c.value != [] && pathExists(c.value)) ==> r == Json(500, MissingOutputMessage))
  {
  }

  /**
   * The conversion program is started exactly when `Invoked` says so: without
   * a started tool the response is the same whatever the run would have done,
   * and with one a run that times out turns the response into a 504.
   */
  lemma RunMattersIff(req: Request, env: Env, work: string)
    ensures Invoked(req, env).Some? <==> Handle(req, env.(run := TimedOut), work).Status() == 504
    ensures Invoked(req, env).None? ==> forall r :: Handle(req, env.(run := r), work) == Handle(req, env, work)
  {
    var timedOut := env.(run := TimedOut);
    assert Invoked(req, timedOut) == Invoked(req, env);
    TimeoutIff(req, timedOut, work);
    if Invoked(req, env).None? {
      forall r ensures Handle(req, env.(run := r), work) == Handle(req, env, work) {
        var other := env.(run := r);
        assert Invoked(req, other) == Invoked(req, env);
        NotInvokedResponse(req, other, work);
        NotInvokedResponse(req, env, work);
        if Selected(req) && env.saveError.None? {
          UnsupportedResponse(req, other, work);
          UnsupportedResponse(req, env, work);
        }
      }
    }
  }

  /** Any other exception from running a started program is a 500 carrying that exception's text. */
  lemma OtherExceptionMessage(req: Request, env: Env, work: string)
    requires Invoked(req, env).Some? && env.run.Failed?
    ensures Handle(req, env, work) == Json(500, FailedPrefix + env.run.message)
  {
    var tool := Invoked(req, env).value;
    var path := OutputPath(InputPath(req, env, work), work, Target(req));
    InvokedResponse(req, env, work, tool);
    assert Conclude(tool, env.run, path) == Err(Error(env.run.message));
    CaughtOutcome(Err(Error(env.run.message)), DownloadName(req), env.pathExists);
  }

  /** Both texts of a 500 start with "Conversion failed". */
  lemma ConversionFailedTexts(message: string)
    ensures ConversionFailed <= FailedPrefix + message
    ensures ConversionFailed <= MissingOutputMessage
  {
    assert (FailedPrefix + message)[..|ConversionFailed|] == ConversionFailed;
    assert MissingOutputMessage[..|ConversionFailed|] == ConversionFailed;
  }

  /** The handler answers with one of four status codes. */
  lemma StatusCodes(req: Request, env: Env, work: string)
    ensures Handle(req, env, work).Status() in {200, 400, 500, 504}
  {
    match Invoked(req, env)
    case None => NotInvokedResponse(req, env, work);
    case Some(tool) =>
      InvokedResponse(req, env, work, tool);
      CaughtOutcome(Conclude(tool, env.run, OutputPath(InputPath(req, env, work), work, Target(req))), DownloadName(req), env.pathExists);
  }

  /**
   * A 400 is returned exactly for a missing part, an empty file name, or a
   * saved upload whose pair of formats no tool handles; each with its message.
   */
  lemma BadRequestIff(req: Request, env: Env, work: string)
    ensures var r := Handle(req, env, work);
            && (r.Status() == 400 <==>
                  || req.file.None? || req.targetFormat.None?
                  || req.file.value.filename == []
                  || (env.saveError.None? &&
                      RouteFor(SourceExtension(req.file.value.filename), Target(req)) == Unsupported))
            && (req.file.None? || req.targetFormat.None? ==> r == Json(400, MissingPartsMessage))
            && (req.file.Some? && req.targetFormat.Some? && req.file.value.filename == [] ==> r == Json(400, NoFileMessage))
            && (Selected(req) && env.saveError.None? &&
                RouteFor(SourceExtension(req.file.value.filename), Target(req)) == Unsupported ==>
                  r == Json(400, UnsupportedMessage(SourceExtension(req.file.value.filename), Target(req))))
  {
    if !Selected(req) {
      UnselectedResponse(req, env, work);
    } else if env.saveError.Some? {
      SaveErrorResponse(req, env, work);
    } else {
      match Invoked(req, env)
      case None => UnsupportedResponse(req, env, work);
      case Some(tool) =>
        InvokedResponse(req, env, work, tool);
        CaughtStatus(Conclude(tool, env.run, OutputPath(InputPath(req, env, work), work, Target(req))), DownloadName(req), env.pathExists);
    }
  }

  /** A 504 is returned exactly when a conversion program was started and timed out. */
  lemma TimeoutIff(req: Request, env: Env, work: string)
    ensures Handle(req, env, work).Status() == 504 <==> Invoked(req, env).Some? && env.run.TimedOut?
    ensures Handle(req, env, work).Status() == 504 ==> Handle(req, env, work) == Json(504, TimeoutMessage)
  {
    match Invoked(req, env)
    case None => NotInvokedResponse(req, env, work);
    case Some(tool) =>
      var path := OutputPath(InputPath(req, env, work), work, Target(req));
      InvokedResponse(req, env, work, tool);
      ConcludeContract(tool, env.run, path);
      CaughtOutcome(Conclude(tool, env.run, path), DownloadName(req), env.pathExists);
  }

  /**
   * The file is sent exactly when a program was started, exited with status
   * 0, and the expected output path exists; it is that path, offered under
   * the client's name with the target format as extension.
   */
  lemma AttachmentIff(req: Request, env: Env, work: string)
    ensures var r := Handle(req, env, work);
            && (r.Attachment? <==>
                  && Invoked(req, env).Some?
                  && env.run.Exited? && env.run.code == 0
                  && env.pathExists(OutputPath(InputPath(req, env, work), work, Target(req))))
            && (r.Attachment? ==>
                  && r.path == OutputPath(InputPath(req, env, work), work, Target(req))
                  && r.downloadName == DownloadName(req))
  {
    match Invoked(req, env)
    case None => NotInvokedResponse(req, env, work);
    case Some(tool) =>
      var path := OutputPath(InputPath(req, env, work), work, Target(req));
      InvokedResponse(req, env, work, tool);
      ConcludeContract(tool, env.run, path);
      CaughtOutcome(Conclude(tool, env.run, path), DownloadName(req), env.pathExists);
      assert |work| < |path|;
  }

  /** Every 500 response says that the conversion failed. */
  lemma ServerErrorsSayConversionFailed(req: Request, env: Env, work: string)
    ensures var r := Handle(req, env, work);
            r.Status() == 500 ==> r.Json? && ConversionFailed <= r.error
  {
    match Invoked(req, env)
    case None =>
      NotInvokedResponse(req, env, work);
      if env.saveError.Some? { ConversionFailedTexts(env.saveError.value); }
    case Some(tool) =>
      InvokedResponse(req, env, work, tool);
      CaughtStatus(Conclude(tool, env.run, OutputPath(InputPath(req, env, work), work, Target(req))),
                   DownloadName(req), env.pathExists);
  }

  /**
   * Whatever the adapter's outcome, it becomes a 200, a 500 or a 504, and a
   * 500 says that the conversion failed.
   */
  lemma CaughtStatus(c: Result<string>, name: string, pathExists: string -> bool)
    ensures var r := Catch(Deliver(c, name, pathExists));
            && r.Status() in {200, 500, 504}
            && (r.Status() == 500 ==> r.Json? && ConversionFailed <= r.error)
  {
    CaughtOutcome(c, name, pathExists);
    if c.Err? && c.exc.Error? {
      ConversionFailedTexts(c.exc.message);
    } else {
      ConversionFailedTexts("");
    }
  }

  /**
   * A program that exits with a non-zero status and prints something other
   * than whitespace yields a 500 whose text nests the adapter's message in
   * the handler's: the handler prefix, the tool's prefix, then the last line
   * of the stripped output.
   */
  lemma ToolFailureMessage(req: Request, env: Env, work: string)
    requires Invoked(req, env).Some?
    requires env.run.Exited? && env.run.code != 0
    requires !AllSpace(env.run.stderr + env.run.stdout)
    ensures var tool, s := Invoked(req, env).value, Strip(env.run.stderr + env.run.stdout);
            Handle(req, env, work) == Json(500, FailedPrefix + (FailurePrefix(tool) + s[LastBreak(s) + 1..]))
  {
    var tool := Invoked(req, env).value;
    var path := OutputPath(InputPath(req, env, work), work, Target(req));
    InvokedResponse(req, env, work, tool);
    FailedRunOutcome(tool, env.run, path);
    var s := Strip(env.run.stderr + env.run.stdout);
    var line := s[LastBreak(s) + 1..];
    CaughtOutcome(Err(Error(FailurePrefix(tool) + line)), DownloadName(req), env.pathExists);
  }

  /**
   * A program that exits with a non-zero status and prints nothing at all
   * yields a 500 with the tool's fixed "Unknown ... Error" text.
   */
  lemma SilentFailureMessage(req: Request, env: Env, work: string)
    requires Invoked(req, env).Some?
    requires env.run.Exited? && env.run.code != 0 && env.run.stderr == [] && env.run.stdout == []
    ensures var tool := Invoked(req, env).value;
            Handle(req, env, work) == Json(500, FailedPrefix + (FailurePrefix(tool) + UnknownError(tool)))
  {
    var tool := Invoked(req, env).value;
    var c := Conclude(tool, env.run, OutputPath(InputPath(req, env, work), work, Target(req)));
    InvokedResponse(req, env, work, tool);
    ConcludeContract(tool, env.run, OutputPath(InputPath(req, env, work), work, Target(req)));
    assert env.run.stderr + env.run.stdout == [];
    CaughtOutcome(c, DownloadName(req), env.pathExists);
  }

  /**
   * A program that exits with a non-zero status and prints only whitespace
   * makes the adapter index an empty list of lines, and the client sees the
   * `IndexError` text instead of the tool's diagnostic.
   */
  lemma WhitespaceOutputMessage(req: Request, env: Env, work: string)
    requires Invoked(req, env).Some?
    requires env.run.Exited? && env.run.code != 0
    requires env.run.stderr + env.run.stdout != [] && AllSpace(env.run.stderr + env.run.stdout)
    ensures Handle(req, env, work) == Json(500, FailedPrefix + IndexErrorMessage)
  {
    var tool := Invoked(req, env).value;
    var c := Conclude(tool, env.run, OutputPath(InputPath(req, env, work), work, Target(req)));
    InvokedResponse(req, env, work, tool);
    ConcludeContract(tool, env.run, OutputPath(InputPath(req, env, work), work, Target(req)));
    CaughtOutcome(c, DownloadName(req), env.pathExists);
  }

  /** The download name depends on the request alone, not on the environment or the working directory. */
  lemma DownloadNameIndependent(req: Request, env1: Env, env2: Env, work1: string, work2: string)
    requires Handle(req, env1, work1).Attachment? && Handle(req, env2, work2).Attachment?
    ensures Handle(req, env1, work1).downloadName == Handle(req, env2, work2).downloadName
  {
    AttachmentIff(req, env1, work1);
    AttachmentIff(req, env2, work2);
  }

  /**
   * When the client's name has an extension, the download name is that name
   * with the text after its last dot replaced by the target format.
   */
  lemma DownloadNameReplacesExtension(name: string, target: string)
    requires '/' !in name && HasExtension(name)
    ensures var ext := AfterLast(name, '.');
            && name == Root(name) + "." + ext
            && Root(name) + "." + target == name[..|name| - |ext|] + target
  {
    ExtensionAfterLastDot(name);
    DotJoin(Root(name), AfterLast(name, '.'));
  }

  lemma DotJoin(r: string, ext: string)
    ensures var n := r + ("." + ext);
            n == r + "." + ext && n[..|n| - |ext|] == r + "."
  {
    var n := r + ("." + ext);
    assert n[..|n| - |ext|] == r + ".";
  }

  /**
   * A request that passes validation and saves starts a tool exactly when
   * its source extension or its target is listed as a document or media type.
   */
  lemma ListedRequestsInvokeATool(req: Request, env: Env)
    requires Selected(req) && env.saveError.None?
    ensures var ext, target := SourceExtension(req.file.value.filename), Target(req);
            Invoked(req, env).Some? <==>
              ext in DocumentTypes || ext in MediaTypes || target in DocumentTypes || target in MediaTypes
  {
    UnsupportedIffUnlisted(SourceExtension(req.file.value.filename), Target(req));
  }

  /** The request without a file part is refused before anything else is looked at. */
  lemma MissingFileExample(env: Env, work: string)
    ensures Handle(Request(None, Some("pdf")), env, work) == Json(400, MissingPartsMessage)
  {
    UnselectedResponse(Request(None, Some("pdf")), env, work);
  }

  /** A 7-Zip archive cannot be converted to gzip: neither name is listed, and both are named in the refusal. */
  lemma UnsupportedPairExample(env: Env, work: string)
    requires env.saveError.None?
    ensures Handle(Request(Some(Upload("backup.7z")), Some("gz")), env, work)
            == Json(400, UnsupportedMessage("7z", "gz"))
  {
    var req := Request(Some(Upload("backup.7z")), Some("gz"));
    ExtensionExample("backup.7z", 6);
    LowerExample("gz");
    ShortNamesUnlisted("7z");
    ShortNamesUnlisted("gz");
    UnsupportedIffUnlisted("7z", "gz");
    UnsupportedResponse(req, env, work);
  }

  /** `report.docx` to `PDF` goes to LibreOffice and, once it succeeds, downloads as `report.pdf`. */
  lemma DocumentExample(req: Request, env: Env, work: string)
    requires req == Request(Some(Upload("report.docx")), Some("PDF"))
    requires env.saveError.None? && env.run == Exited(0, "", "")
    requires env.pathExists(OutputPath(InputPath(req, env, work), work, "pdf"))
    ensures Invoked(req, env) == Some(LibreOffice)
    ensures Handle(req, env, work) == Attachment(OutputPath(InputPath(req, env, work), work, "pdf"), "report" + "." + "pdf")
  {
    DocumentRequestFacts(req);
    var path := OutputPath(InputPath(req, env, work), work, "pdf");
    InvokedResponse(req, env, work, LibreOffice);
    CaughtOutcome(Ok(path), DownloadName(req), env.pathExists);
  }

  lemma DocumentRequestFacts(req: Request)
    requires req == Request(Some(Upload("report.docx")), Some("PDF"))
    ensures Target(req) == "pdf"
    ensures RouteFor(SourceExtension(req.file.value.filename), Target(req)) == Use(LibreOffice)
    ensures DownloadName(req) == "report" + "." + "pdf"
  {
    assert Lower("PDF") == "pdf";
    assert DocumentTypes[7] == "pdf";
    DocumentTakesPrecedence(SourceExtension(req.file.value.filename), "pdf");
    RootExample();
  }

  lemma RootExample()
    ensures Root("report.docx") == "report"
  {
    assert "report.docx" == "report" + "." + "docx";
    SplitAtAddedDot("report", "docx", 0);
  }

  /** The source extension of a name whose only dot is at `dot`. */
  lemma ExtensionExample(name: string, dot: nat)
    requires dot < |name| && name[dot] == '.'
    requires forall k :: 0 <= k < |name| && k != dot ==> 'a' <= name[k] <= 'z' || '0' <= name[k] <= '9'
    ensures SourceExtension(name) == name[dot + 1..]
  {
    var tail := name[dot + 1..];
    assert AfterLast(name, '.') == tail by {
      RFindIs(name, '.', dot);
      AfterLastAt(name, '.');
    }
    forall k | 0 <= k < |tail| ensures 'a' <= tail[k] <= 'z' || '0' <= tail[k] <= '9' {
      assert tail[k] == name[dot + 1 + k];
    }
    LowerExample(tail);
  }

  /** A name of lower-case letters and digits is its own lower-case form. */
  lemma LowerExample(s: string)
    requires forall k :: 0 <= k < |s| ==> 'a' <= s[k] <= 'z' || '0' <= s[k] <= '9'
    ensures Lower(s) == s
  {
  }
}

=== FILE: posixpath.dfy ===
/**
 * The three `os.path` helpers of POSIX Python that the converter uses to
 * derive file names: `basename`, `splitext` and two-argument `join`.
 */
module PosixPath {
  import opened PyStr

  /** True when the file name `b` has a dot that follows some non-dot character. */
  predicate HasExtension(b: string)
  {
    exists i, j :: 0 <= i < j < |b| && b[i] != '.' && b[j] == '.'
  }

  /** `os.path.basename(p)`: what follows the last slash of `p`, or all of `p` when it has none. */
  function Basename(p: string): (b: string)
    ensures '/' !in b
  {
    p[RFind(p, '/') + 1..]
  }

  lemma BasenameAfterLastSlash(p: string)
    ensures Basename(p) == p[RFind(p, '/') + 1..]
  {
  }

  /** The base name is the longest suffix of `p` without a slash. */
  lemma BasenameIsLastComponent(p: string)
    ensures var b := Basename(p);
            && |b| <= |p| && b == p[|p| - |b|..]
            && (|b| < |p| ==> p[|p| - |b| - 1] == '/')
  {
  }

  /**
   * `os.path.splitext(p)`: splits off the extension of the last path
   * component, that is its last dot and what follows. Leading dots of the
   * component do not start an extension ('.bashrc' has none), and neither
   * does a dot in an earlier component.
   */
  function SplitExt(p: string): (parts: (string, string))
    ensures parts.0 + parts.1 == p
    ensures parts.1 == [] || parts.1[0] == '.'
  {
    var sep := RFind(p, '/');
    var dot := RFind(p, '.');
    if sep < dot && NonDotBetween(p, sep, dot) then (p[..dot], p[dot..]) else (p, [])
  }

  /**
   * There is an extension exactly when the base name has a dot after some
   * non-dot character, and the extension holds no further dot and no slash.
   */
  lemma SplitExtSpec(p: string)
    ensures var ext := SplitExt(p).1;
            && (ext != [] <==> HasExtension(Basename(p)))
            && (ext != [] ==> '.' !in ext[1..] && '/' !in ext)
  {
    var sep := RFind(p, '/');
    var dot := RFind(p, '.');
    if sep < dot && NonDotBetween(p, sep, dot) {
      SplitExtFound(p, sep, dot);
      ExtensionShape(p, sep, dot);
      BasenameAfterLastSlash(p);
    } else {
      assert SplitExt(p).1 == [];
      SplitExtNotFound(p, sep, dot);
    }
  }

  /** Some character strictly between positions `lo` and `hi` of `p` is not a dot. */
  predicate NonDotBetween(p: string, lo: int, hi: int)
    requires -1 <= lo && hi <= |p|
  {
    exists k :: lo < k < hi && p[k] != '.'
  }

  lemma SplitExtFound(p: string, sep: int, dot: int)
    requires -1 <= sep < dot < |p| && p[dot] == '.'
    requires NonDotBetween(p, sep, dot)
    ensures HasExtension(p[sep + 1..])
  {
    var b := p[sep + 1..];
    var k :| sep < k < dot && p[k] != '.';
    assert b[k - sep - 1] == p[k] && b[dot - sep - 1] == p[dot];
  }

  lemma ExtensionShape(p: string, sep: int, dot: int)
    requires sep == RFind(p, '/') && dot == RFind(p, '.')
    requires sep < dot
    ensures p[dot..] != [] && p[dot..][0] == '.' && '.' !in p[dot..][1..] && '/' !in p[dot..]
  {
    var e := p[dot..];
    forall i | 0 <= i < |e| ensures e[i] != '/' && (i > 0 ==> e[i] != '.') {
      assert e[i] == p[dot + i];
    }
    forall i | 0 <= i < |e[1..]| ensures e[1..][i] != '.' {
      assert e[1..][i] == e[i + 1];
    }
  }

  lemma SplitExtNotFound(p: string, sep: int, dot: int)
    requires sep == RFind(p, '/') && dot == RFind(p, '.')
    requires !(sep < dot && NonDotBetween(p, sep, dot))
    ensures !HasExtension(Basename(p))
  {
    assert Basename(p) == p[sep + 1..];
  }

  /** A slash-free name with an extension loses exactly the text after its last dot, and that dot. */
  lemma ExtensionAfterLastDot(name: string)
    requires '/' !in name && HasExtension(name)
    ensures SplitExt(name).1 == "." + AfterLast(name, '.')
  {
    var i, j :| 0 <= i < j < |name| && name[i] != '.' && name[j] == '.';
    var dot := RFind(name, '.');
    assert j <= dot;
    RFindIs(name, '/', -1);
    assert NonDotBetween(name, -1, dot);
    SplitExtAt(name, dot);
    AfterLastAt(name, '.');
    assert name[dot..] == "." + name[dot + 1..];
  }

  /** The extension starts at the last dot when that dot is past the last slash with a non-dot between. */
  lemma SplitExtAt(p: string, dot: int)
    requires dot == RFind(p, '.') && RFind(p, '/') < dot && NonDotBetween(p, RFind(p, '/'), dot)
    ensures SplitExt(p).1 == p[dot..]
  {
  }

  /** The root `os.path.splitext(p)[0]`: `p` without its extension. */
  function Root(p: string): (r: string)
    ensures |r| <= |p| && r == p[..|r|]
    ensures |r| < |p| ==> p[|r|] == '.'
  {
    var parts := SplitExt(p);
    assert p[..|parts.0|] == parts.0;
    parts.0
  }

  /**
   * `os.path.join(a, b)` for two parts: `b` alone when it is absolute, else
   * `a` and `b` with one slash between them unless `a` is empty or already
   * ends with one.
   */
  function Join(a: string, b: string): (r: string)
    ensures b != [] && b[0] == '/' ==> r == b
    ensures |b| <= |r|
    ensures (b == [] || b[0] != '/') ==> |a| <= |r| && r[..|a|] == a && r[|r| - |b|..] == b
    ensures (b == [] || b[0] != '/') ==>
              |a| <= |r| - |b| && r[|a|..|r| - |b|] == (if a == [] || a[|a| - 1] == '/' then "" else "/")
    ensures b != [] && '/' !in b ==> Basename(r) == b
  {
    var r := if b != [] && b[0] == '/' then b
             else if a == [] || a[|a| - 1] == '/' then a + b
             else a + "/" + b;
    assert r[|r| - |b|..] == b;
    JoinBasename(r, b);
    r
  }

  /** A relative part joined to a directory follows it directly or after one slash. */
  lemma JoinedAfterDir(a: string, b: string)
    requires b != [] && b[0] != '/'
    ensures var r := Join(a, b);
            |a| <= |r| && (r[|a|..] == b || r[|a|..] == "/" + b)
  {
    var r := Join(a, b);
    var between := r[|a|..|r| - |b|];
    assert r[|a|..] == between + b by {
      assert r[|a|..] == between + r[|r| - |b|..];
    }
    if between == [] {
      assert between + b == b;
    }
  }

  /** A slash-free final part ending after a slash, or making up all of `r`, is the basename. */
  lemma JoinBasename(r: string, b: string)
    requires |b| <= |r| && r[|r| - |b|..] == b
    requires |b| == |r| || r[|r| - |b| - 1] == '/'
    ensures b != [] && '/' !in b ==> Basename(r) == b
  {
    if b != [] && '/' !in b {
      forall k | |r| - |b| <= k < |r| ensures r[k] != '/' {
        assert r[k] == b[k - (|r| - |b|)];
      }
    }
  }
}

=== FILE: pystr.dfy ===
/**
 * The few Python `str` built-ins the converter service relies on, with the
 * exact character classes CPython uses: `str.lower`, `str.rfind`/`str.rsplit`
 * on one separator, `str.strip` with no argument and `str.splitlines`.
 * Strings are sequences of Unicode scalar values; a Python `str` holding
 * lone surrogates has no counterpart here.
 */
module PyStr {

  /** A table of closed code point ranges. */
  datatype Ranges = End | Range(lo: char, hi: char, rest: Ranges)

  /** Whether `c` lies in one of the ranges of `t`. */
  predicate InRanges(c: char, t: Ranges)
  {
    t.Range? && (t.lo <= c <= t.hi || InRanges(c, t.rest))
  }

  /** The number of ranges in `t`. */
  function Count(t: Ranges): nat
  {
    if t.End? then 0 else 1 + Count(t.rest)
  }

  /** The range at index `k` of `t`. */
  function At(t: Ranges, k: nat): (char, char)
    requires k < Count(t)
  {
    if k == 0 then (t.lo, t.hi) else At(t.rest, k - 1)
  }

  /**
   * The characters for which CPython's `str.isspace` holds, as ranges:
   * tab to carriage return, the four information separators and space,
   * NEXT LINE, NO-BREAK SPACE, OGHAM SPACE MARK, the spaces U+2000 to
   * U+200A, LINE and PARAGRAPH SEPARATOR, NARROW NO-BREAK SPACE, MEDIUM
   * MATHEMATICAL SPACE and IDEOGRAPHIC SPACE.
   */
  const SpaceRanges: Ranges :=
    Range('\t', '\r', Range('\U{1C}', ' ', Range('\U{85}', '\U{85}', Range('\U{A0}', '\U{A0}',
    Range('\U{1680}', '\U{1680}', Range('\U{2000}', '\U{200A}', Range('\U{2028}', '\U{2029}',
    Range('\U{202F}', '\U{202F}', Range('\U{205F}', '\U{205F}', Range('\U{3000}', '\U{3000}', End))))))))))

  /**
   * The line boundaries `str.splitlines` splits at: line feed, vertical tab,
   * form feed, carriage return, the file, group and record separators,
   * NEXT LINE, and LINE and PARAGRAPH SEPARATOR.
   */
  const LineBreakRanges: Ranges :=
    Range('\n', '\r', Range('\U{1C}', '\U{1E}', Range('\U{85}', '\U{85}', Range('\U{2028}', '\U{2029}', End))))

  /** Whitespace as `str.strip()` with no argument removes it. */
  predicate IsSpace(c: char)
  {
    InRanges(c, SpaceRanges)
  }

  /** A line boundary of `str.splitlines` (a "\r\n" pair counts as one). */
  predicate IsLineBreak(c: char)
  {
    InRanges(c, LineBreakRanges)
  }

  /** `l` holds no line boundary: a line as `splitlines` returns it. */
  predicate NoBreaks(l: string)
  {
    forall i :: 0 <= i < |l| ==> !IsLineBreak(l[i])
  }

  /** A character inside the range at index `k` is in the table. */
  lemma {:induction false} InRangesAt(c: char, t: Ranges, k: nat)
    requires k < Count(t) && At(t, k).0 <= c <= At(t, k).1
    ensures InRanges(c, t)
    decreases k
  {
    if k > 0 {
      InRangesAt(c, t.rest, k - 1);
    }
  }

  /** A character in the table lies inside one of its ranges. */
  lemma {:induction false} RangeOf(c: char, t: Ranges) returns (k: nat)
    requires InRanges(c, t)
    ensures k < Count(t) && At(t, k).0 <= c <= At(t, k).1
    decreases t
  {
    if t.lo <= c <= t.hi {
      k := 0;
    } else {
      var j := RangeOf(c, t.rest);
      k := j + 1;
    }
  }

  /** Every line boundary is whitespace, so stripped text neither starts nor ends with one. */
  lemma LineBreaksAreWhitespace(c: char)
    ensures IsLineBreak(c) ==> IsSpace(c)
  {
    if IsLineBreak(c) {
      var k := RangeOf(c, LineBreakRanges);
      assert Count(LineBreakRanges) == 4;
      if k == 0 {
        assert At(LineBreakRanges, 0) == ('\n', '\r') && At(SpaceRanges, 0) == ('\t', '\r');
        InRangesAt(c, SpaceRanges, 0);
      } else if k == 1 {
        assert At(LineBreakRanges, 1) == ('\U{1C}', '\U{1E}') && At(SpaceRanges, 1) == ('\U{1C}', ' ');
        InRangesAt(c, SpaceRanges, 1);
      } else if k == 2 {
        assert At(LineBreakRanges, 2) == ('\U{85}', '\U{85}') && At(SpaceRanges, 2) == ('\U{85}', '\U{85}');
        InRangesAt(c, SpaceRanges, 2);
      } else {
        assert At(LineBreakRanges, 3) == ('\U{2028}', '\U{2029}') && At(SpaceRanges, 6) == ('\U{2028}', '\U{2029}');
        InRangesAt(c, SpaceRanges, 6);
      }
    }
  }

  /** Every range of `t` starts above `b`. */
  predicate StartsAbove(t: Ranges, b: char)
  {
    t.End? || (b < t.lo && StartsAbove(t.rest, b))
  }

  /** A character at or below where every range starts is in none of them. */
  lemma {:induction false} NotBelowTable(c: char, b: char, t: Ranges)
    requires c <= b && StartsAbove(t, b)
    ensures !InRanges(c, t)
  {
    if t.Range? {
      NotBelowTable(c, b, t.rest);
    }
  }

  /** No printable ASCII character other than space is whitespace. */
  lemma PrintableIsNotSpace(c: char)
    requires ' ' < c <= '~'
    ensures !IsSpace(c) && !IsLineBreak(c)
  {
    var t := SpaceRanges.rest.rest;
    assert StartsAbove(t, '~');
    NotBelowTable(c, '~', t);
    assert !(SpaceRanges.rest.lo <= c <= SpaceRanges.rest.hi);
    assert !InRanges(c, SpaceRanges.rest);
    assert !(SpaceRanges.lo <= c <= SpaceRanges.hi);
    LineBreaksAreWhitespace(c);
  }

  /** One character of `str.lower`: ASCII capitals, and KELVIN SIGN, which Python lowers to 'k'. */
  function LowerChar(c: char): (d: char)
    ensures 'A' <= c <= 'Z' ==> 'a' <= d <= 'z' && d as int - c as int == 32
    ensures c == '\U{212A}' ==> d == 'k'
    ensures !('A' <= c <= 'Z') && c != '\U{212A}' ==> d == c
  {
    if 'A' <= c <= 'Z' then (c as int + 32) as char
    else if c == '\U{212A}' then 'k'
    else c
  }

  /** `s.lower()`, character by character. */
  function Lower(s: string): (r: string)
    ensures |r| == |s|
    ensures forall k :: 0 <= k < |s| ==> r[k] == LowerChar(s[k])
  {
    if s == [] then [] else [LowerChar(s[0])] + Lower(s[1..])
  }

  /** Lowering twice is lowering once: a lowered string has no capitals left. */
  lemma LowerIdempotent(s: string)
    ensures Lower(Lower(s)) == Lower(s)
  {
    var t := Lower(s);
    assert forall k :: 0 <= k < |t| ==> LowerChar(t[k]) == t[k];
  }

  /** `s.rfind(c)`: the index of the last `c` in `s`, or -1 when there is none. */
  function RFind(s: string, c: char): (i: int)
    ensures -1 <= i < |s|
    ensures 0 <= i ==> s[i] == c
    ensures forall k :: i < k < |s| ==> s[k] != c
  {
    if s == [] then -1
    else if s[|s| - 1] == c then |s| - 1
    else RFind(s[..|s| - 1], c)
  }

  /** `rfind` finds exactly the occurrence that no later `c` follows. */
  lemma RFindIs(s: string, c: char, i: int)
    requires -1 <= i < |s| && (0 <= i ==> s[i] == c)
    requires forall k :: i < k < |s| ==> s[k] != c
    ensures RFind(s, c) == i
  {
  }

  /** `s.rsplit(sep, 1)[-1]`: the text after the last `sep`, or all of `s` when it has none. */
  function AfterLast(s: string, sep: char): (r: string)
    ensures sep !in r
    ensures sep !in s ==> r == s
    ensures sep in s ==> exists i :: 0 <= i < |s| && s[i] == sep && r == s[i + 1..]
  {
    var i := RFind(s, sep);
    if i == -1 then
      assert forall k :: 0 <= k < |s| ==> s[k] != sep;
      s
    else
      s[i + 1..]
  }

  /** With a `sep` present, the text after the last one. */
  lemma AfterLastAt(s: string, sep: char)
    requires RFind(s, sep) >= 0
    ensures AfterLast(s, sep) == s[RFind(s, sep) + 1..]
  {
  }

  /** Every character of `s` is whitespace. */
  predicate AllSpace(s: string)
  {
    forall k :: 0 <= k < |s| ==> IsSpace(s[k])
  }

  /** How many whitespace characters `s` starts with. */
  function LeadingSpace(s: string): (n: nat)
    ensures n <= |s|
    ensures forall k :: 0 <= k < n ==> IsSpace(s[k])
    ensures n < |s| ==> !IsSpace(s[n])
  {
    if s == [] || !IsSpace(s[0]) then 0 else 1 + LeadingSpace(s[1..])
  }

  /** How many whitespace characters `s` ends with. */
  function TrailingSpace(s: string): (n: nat)
    ensures n <= |s|
    ensures forall k :: |s| - n <= k < |s| ==> IsSpace(s[k])
    ensures n < |s| ==> !IsSpace(s[|s| - n - 1])
  {
    if s == [] || !IsSpace(s[|s| - 1]) then 0 else 1 + TrailingSpace(s[..|s| - 1])
  }

  /**
   * `s.strip()`: `s` without its leading and trailing whitespace. The result
   * is empty exactly when `s` is all whitespace, and otherwise begins and
   * ends with a character that is not whitespace.
   */
  function Strip(s: string): (r: string)
    ensures |r| <= |s|
    ensures r == [] <==> AllSpace(s)
    ensures r != [] ==> !IsSpace(r[0]) && !IsSpace(r[|r| - 1])
    ensures exists i, j :: 0 <= i <= j <= |s| && r == s[i..j] && AllSpace(s[..i]) && AllSpace(s[j..])
  {
    var i := LeadingSpace(s);
    if i == |s| then
      assert s[|s|..|s|] == [] && AllSpace(s[..|s|]) && AllSpace(s[|s|..]);
      []
    else
      var j := |s| - TrailingSpace(s);
      assert i < j;
      s[i..j]
  }

  /** The index of the first line boundary in `s`, or `|s|` when there is none. */
  function FirstBreak(s: string): (k: nat)
    ensures k <= |s|
    ensures k < |s| ==> IsLineBreak(s[k])
    ensures forall i :: 0 <= i < k ==> !IsLineBreak(s[i])
  {
    if s == [] || IsLineBreak(s[0]) then 0 else 1 + FirstBreak(s[1..])
  }

  /** Where the text after the line boundary at `k` starts: "\r\n" is consumed as one. */
  function NextLineStart(s: string, k: nat): (j: nat)
    requires k < |s| && IsLineBreak(s[k])
    ensures k < j <= |s| && j <= k + 2
    ensures forall i :: k <= i < j ==> IsLineBreak(s[i])
  {
    if s[k] == '\r' && k + 1 < |s| && s[k + 1] == '\n' then k + 2 else k + 1
  }

  /**
   * `s.splitlines()`: the lines of `s` without their boundaries; the empty
   * string has no lines, and a trailing boundary does not open a new line.
   */
  function SplitLines(s: string): (lines: seq<string>)
    ensures lines == [] <==> s == []
    decreases |s|
  {
    if s == [] then []
    else
      var k := FirstBreak(s);
      if k == |s| then [s]
      else [s[..k]] + SplitLines(s[NextLineStart(s, k)..])
  }

  /** No line that `splitlines` returns holds a line boundary. */
  lemma {:induction false} SplitLinesHaveNoBreaks(s: string)
    ensures forall l :: l in SplitLines(s) ==> NoBreaks(l)
    decreases |s|
  {
    if s != [] {
      var k := FirstBreak(s);
      if k < |s| {
        var rest := s[NextLineStart(s, k)..];
        SplitLinesHaveNoBreaks(rest);
        assert SplitLines(s) == [s[..k]] + SplitLines(rest);
        assert forall i :: 0 <= i < k ==> s[..k][i] == s[i];
      }
    }
  }

  /** The index of the last line boundary in `s`, or -1 when there is none. */
  function LastBreak(s: string): (i: int)
    ensures -1 <= i < |s|
  {
    if s == [] then -1
    else if IsLineBreak(s[|s| - 1]) then |s| - 1
    else LastBreak(s[..|s| - 1])
  }

  /** `LastBreak` finds a boundary, and none follows it. */
  lemma {:induction false} LastBreakSpec(s: string)
    ensures var i := LastBreak(s);
            && (0 <= i ==> IsLineBreak(s[i]))
            && forall k :: i < k < |s| ==> !IsLineBreak(s[k])
  {
    if s != [] && !IsLineBreak(s[|s| - 1]) {
      var t := s[..|s| - 1];
      LastBreakSpec(t);
      assert forall k :: 0 <= k < |t| ==> t[k] == s[k];
    }
  }

  /** The last boundary is the one that no later boundary follows. */
  lemma LastBreakIs(s: string, i: int)
    requires -1 <= i < |s| && (0 <= i ==> IsLineBreak(s[i]))
    requires forall k :: i < k < |s| ==> !IsLineBreak(s[k])
    ensures LastBreak(s) == i
  {
    LastBreakSpec(s);
  }

  /**
   * Where `s[j - 1]` is a line boundary, the last boundary of `s` is found
   * by searching the suffix `s[j..]` alone.
   */
  lemma {:induction false} LastBreakInSuffix(s: string, j: nat)
    requires 0 < j <= |s| && IsLineBreak(s[j - 1])
    ensures LastBreak(s) == j + LastBreak(s[j..])
    decreases |s|
  {
    if j < |s| && !IsLineBreak(s[|s| - 1]) {
      var t := s[..|s| - 1];
      assert t[j..] == s[j..][..|s[j..]| - 1];
      assert t[j - 1] == s[j - 1];
      LastBreakInSuffix(t, j);
    }
  }

  /** `s[j..][r + 1..]` is `s[j + r + 1..]`. */
  lemma DropTwice(s: string, j: nat, r: int)
    requires j <= |s| && -1 <= r < |s| - j
    ensures s[j..][r + 1..] == s[j + r + 1..]
  {
  }

  /** After a line boundary at `j - 1`, what follows the last boundary of `s` is what follows the last one of `s[j..]`. */
  lemma TailAfterBreak(s: string, j: nat)
    requires 0 < j <= |s| && IsLineBreak(s[j - 1])
    ensures s[LastBreak(s) + 1..] == s[j..][LastBreak(s[j..]) + 1..]
  {
    LastBreakInSuffix(s, j);
    DropTwice(s, j, LastBreak(s[j..]));
  }

  /**
   * When `s` does not end with a line boundary, its last line is everything
   * after the last boundary, and that line is not empty.
   */
  lemma {:induction false} LastLineIsTail(s: string)
    requires s != [] && !IsLineBreak(s[|s| - 1])
    ensures LastBreak(s) + 1 < |s|
    ensures var lines := SplitLines(s);
            lines != [] && lines[|lines| - 1] == s[LastBreak(s) + 1..]
    decreases |s|
  {
    var k := FirstBreak(s);
    if k == |s| {
      LastBreakIs(s, -1);
      assert SplitLines(s) == [s];
    } else {
      var j := NextLineStart(s, k);
      var rest := s[j..];
      assert j < |s| && rest[|rest| - 1] == s[|s| - 1];
      LastLineIsTail(rest);
      LastLineOfRest(s, k, j);
      TailAfterBreak(s, j);
    }
  }

  /** After a line boundary, the last line of `s` is the last line of what follows. */
  lemma LastLineOfRest(s: string, k: nat, j: nat)
    requires s != [] && k == FirstBreak(s) && k < |s| && j == NextLineStart(s, k) && j < |s|
    ensures var lines, tail := SplitLines(s), SplitLines(s[j..]);
            lines != [] && tail != [] && lines[|lines| - 1] == tail[|tail| - 1]
  {
    assert SplitLines(s) == [s[..k]] + SplitLines(s[j..]);
  }
}

=== FILE: service.dfy ===
/**
 * The file system side of the service: the per-request working directory
 * under `/tmp/uploads`, the per-run LibreOffice profile directory under
 * `/tmp/lo-user`, and the two stateful procedures that create and remove
 * them, `convert_document_libreoffice` and `convert_file`.
 *
 * The file system is a set of live directories; a ghost log records the
 * order in which they are created and removed.
 */
module Service {
  import opened PyStr
  import opened PosixPath
  import opened Classifier
  import opened Adapters
  import opened Orchestrator

  /** `UPLOAD_FOLDER`, the parent of every working directory. */
  const UploadFolder: string := "/tmp/uploads"

  /** The parent of every LibreOffice profile directory; nothing but `makedirs` creates it. */
  const ProfileParent: string := "/tmp/lo-user"

  /** The profile parent with its trailing slash. */
  const ProfileRoot: string := ProfileParent + "/"

  /** A lower-case hexadecimal digit, as `str(uuid.uuid4())` writes them. */
  predicate IsHexDigit(c: char)
  {
    '0' <= c <= '9' || 'a' <= c <= 'f'
  }

  /** The character at `i` of a UUID's text: a dash at 8, 13, 18 and 23, a hexadecimal digit elsewhere. */
  predicate UuidCharAt(id: string, i: nat)
    requires i < |id|
  {
    if i in {8, 13, 18, 23} then id[i] == '-' else IsHexDigit(id[i])
  }

  /** The text of a UUID: 36 characters, each as `UuidCharAt` says. */
  predicate IsUuidText(id: string)
  {
    |id| == 36 && forall i :: 0 <= i < 36 ==> UuidCharAt(id, i)
  }

  /** A UUID's text is a non-empty name without a slash. */
  lemma UuidIsName(id: string)
    requires IsUuidText(id)
    ensures id != [] && '/' !in id
  {
    forall k | 0 <= k < |id| ensures id[k] != '/' {
      assert UuidCharAt(id, k);
    }
  }

  /** `d` names an entry directly inside `parent`: the parent, a slash, then a non-empty name without slashes. */
  predicate IsChild(d: string, parent: string)
  {
    |parent| + 1 < |d| && d[..|parent|] == parent && d[|parent|] == '/' && '/' !in d[|parent| + 1..]
  }

  /** Appending a slash and a non-empty slash-free name gives a child. */
  lemma ChildOf(parent: string, name: string)
    requires name != [] && '/' !in name
    ensures IsChild(parent + "/" + name, parent)
  {
    var d := parent + "/" + name;
    assert d[..|parent|] == parent && d[|parent| + 1..] == name;
  }

  /** `os.path.join(UPLOAD_FOLDER, temp_id)`. */
  function WorkDir(id: string): string
  {
    Join(UploadFolder, id)
  }

  /** `f"/tmp/lo-user/{lo_instance_id}"`. */
  function ProfileDir(id: string): string
  {
    ProfileRoot + id
  }

  /** For a UUID, the working directory is the upload folder, a slash, then the UUID. */
  lemma WorkDirShape(id: string)
    requires IsUuidText(id)
    ensures WorkDir(id) == UploadFolder + "/" + id
    ensures |WorkDir(id)| == |UploadFolder| + 1 + |id|
  {
    assert id[0] != '/' by { assert UuidCharAt(id, 0); }
  }

  /**
   * Different UUIDs give different working directories, and no working
   * directory, profile directory or parent of either is another of them.
   */
  lemma DirectoriesDistinct(a: string, b: string, c: string)
    requires IsUuidText(a) && IsUuidText(b)
    ensures a != b ==> WorkDir(a) != WorkDir(b)
    ensures WorkDir(a) != ProfileDir(c)
    ensures UploadFolder < WorkDir(a) && WorkDir(a) != ProfileParent
    ensures ProfileDir(c) != UploadFolder && ProfileDir(c) != ProfileParent
    ensures UploadFolder != ProfileParent
  {
    WorkDirShape(a);
    WorkDirShape(b);
    var n := |UploadFolder| + 1;
    if a != b {
      var i :| 0 <= i < 36 && a[i] != b[i];
      assert WorkDir(a)[n + i] == a[i] && WorkDir(b)[n + i] == b[i];
    }
    assert WorkDir(a)[5] == 'u' && ProfileDir(c)[5] == 'l';
    assert UploadFolder[5] == 'u' && ProfileParent[5] == 'l';
    assert |ProfileParent| < |ProfileDir(c)|;
  }

  /** The creation `makedirs` logs for a directory, none when it is already there. */
  function Missing(d: string, before: set<string>): seq<DirEvent>
  {
    if d in before then [] else [Created(d)]
  }

  /** Creating other directories does not change whether `makedirs` has to create `d`. */
  lemma MissingAfter(d: string, before: set<string>, added: set<string>)
    requires d !in added
    ensures Missing(d, before + added) == Missing(d, before)
  {
  }

  /**
   * The directories left once the working directory, created inside `parent`
   * next to the others the request created, is removed again or not.
   */
  lemma WorkRemoved<T>(before: set<T>, parent: T, work: T, others: set<T>, left: set<T>, removed: bool)
    requires work !in before && work != parent && work !in others && work !in left
    ensures var served := before + {parent, work} + others + left;
            && work in served
            && (if removed then served - {work} else served)
               == before + {parent} + (if removed then {} else {work}) + others + left
            && (removed && parent in before && others <= before && left == {} ==>
                  (if removed then served - {work} else served) == before)
  {
  }

  /**
   * The directories and log a request leaves, from the effect of each of its
   * steps: `makedirs` of the working directory `work`, the `try` block (which
   * touches `/tmp/lo-user` and the profile directory only for a document), and
   * the removal of `work` in `finally`.
   */
  lemma RequestFrame(live0: set<string>, live1: set<string>, live2: set<string>, live3: set<string>,
                     log0: seq<DirEvent>, log1: seq<DirEvent>, log2: seq<DirEvent>, log3: seq<DirEvent>,
                     work: string, profile: string, document: bool, removeWorkOk: bool, removeProfileOk: bool)
    requires work !in live0 && work != UploadFolder && work != ProfileParent && work != profile
    requires UploadFolder != ProfileParent
    requires live1 == live0 + {UploadFolder, work}
    requires log1 == log0 + Missing(UploadFolder, live0) + Missing(work, live0 + {UploadFolder})
    requires live2 == live1 + (if document then {ProfileParent} else {})
                            + (if document && !removeProfileOk then {profile} else {})
    requires log2 == if document then log1 + Missing(ProfileParent, live1) + Lifecycle(profile, removeProfileOk) else log1
    requires live3 == if removeWorkOk then live2 - {work} else live2
    requires log3 == log2 + if removeWorkOk then [Removed(work)] else []
    ensures live3 == live0 + {UploadFolder}
                           + (if removeWorkOk then {} else {work})
                           + (if document then {ProfileParent} else {})
                           + (if document && !removeProfileOk then {profile} else {})
    ensures var made := log0 + Missing(UploadFolder, live0) + [Created(work)];
            var served := if document then made + Missing(ProfileParent, live0) + Lifecycle(profile, removeProfileOk) else made;
            log3 == served + if removeWorkOk then [Removed(work)] else []
    ensures removeWorkOk ==> work !in live3
    ensures removeWorkOk && removeProfileOk && UploadFolder in live0 && ProfileParent in live0 ==> live3 == live0
  {
    var others: set<string> := if document then {ProfileParent} else {};
    var left: set<string> := if document && !removeProfileOk then {profile} else {};
    MissingAfter(work, live0, {UploadFolder});
    MissingAfter(ProfileParent, live0, {UploadFolder, work});
    WorkRemoved(live0, UploadFolder, work, others, left, removeWorkOk);
  }

  /** What happens to a directory, in order. */
  datatype DirEvent = Created(dir: string) | Removed(dir: string)

  /** The events of a directory created and then removed if its removal succeeds. */
  function Lifecycle(dir: string, removed: bool): seq<DirEvent>
  {
    [Created(dir)] + if removed then [Removed(dir)] else []
  }

  /** The directories of the host's file system that the service touches. */
  class Host {
    var live: set<string>
    ghost var log: seq<DirEvent>

    constructor(live0: set<string>)
      ensures live == live0 && log == []
    {
      live := live0;
      log := [];
    }

    /**
     * `os.makedirs(d, exist_ok=True)` for a directory `d` directly inside `parent`:
     * the parent is created first when it is missing, then `d`; a directory
     * that is already there is left as it is.
     */
    method MakeDirs(d: string, parent: string)
      requires IsChild(d, parent)
      modifies this
      ensures live == old(live) + {parent, d}
      ensures log == old(log) + Missing(parent, old(live)) + Missing(d, old(live) + {parent})
    {
      var events := Missing(parent, live);
      live := live + {parent};
      events := events + Missing(d, live);
      live := live + {d};
      log := log + events;
    }

    /**
     * `shutil.rmtree(d)`, which either removes the whole tree or fails; a
     * failure is not reported here, as both callers swallow it.
     */
    method RemoveTree(d: string, succeeds: bool)
      modifies this
      ensures live == if succeeds then old(live) - {d} else old(live)
      ensures log == old(log) + if succeeds then [Removed(d)] else []
    {
      if succeeds {
        live := live - {d};
        log := log + [Removed(d)];
      }
    }

    /**
     * `convert_document_libreoffice`: creates a fresh profile directory,
     * runs LibreOffice (whose outcome is `run`), removes the profile in
     * `finally` whatever the outcome, and only then inspects the exit status.
     * The result is the adapter's outcome. Only the profile's parent is left
     * behind, if it was missing, and the profile itself if its removal failed.
     */
    method ConvertDocument(inputPath: string, outputDir: string, targetFormat: string,
                           instanceId: string, run: ToolRun, removalSucceeds: bool)
      returns (r: Result<string>)
      requires IsUuidText(instanceId)
      requires ProfileDir(instanceId) !in live
      modifies this
      ensures r == Conclude(LibreOffice, run, OutputPath(inputPath, outputDir, targetFormat))
      ensures live == old(live) + {ProfileParent} + if removalSucceeds then {} else {ProfileDir(instanceId)}
      ensures log == old(log) + Missing(ProfileParent, old(live)) + Lifecycle(ProfileDir(instanceId), removalSucceeds)
      ensures ProfileParent in old(live) && removalSucceeds ==> live == old(live)
    {
      var profile := ProfileDir(instanceId);
      assert IsChild(profile, ProfileParent) by {
        UuidIsName(instanceId);
        ChildOf(ProfileParent, instanceId);
      }
      MakeDirs(profile, ProfileParent);
      RemoveTree(profile, removalSucceeds);
      assert live == old(live) + {ProfileParent} + if removalSucceeds then {} else {profile};
      assert log == old(log) + Missing(ProfileParent, old(live)) + Lifecycle(profile, removalSucceeds);
      match run {
        case TimedOut =>
          r := Err(TimeoutExpired);
        case Failed(message) =>
          r := Err(Error(message));
        case Exited(code, stderr, stdout) =>
          if code != 0 {
            match LastErrorLine(stderr + stdout, UnknownError(LibreOffice)) {
              case Ok(line) => r := Err(Error(FailurePrefix(LibreOffice) + line));
              case Err(exc) => r := Err(exc);
            }
          } else {
            r := Ok(OutputPath(inputPath, outputDir, targetFormat));
          }
      }
    }

    /**
     * `convert_file`: creates the request's working directory before any
     * check, answers the request as `Handle` says, and removes the working
     * directory in `finally` on every path. Only a LibreOffice conversion
     * creates (and removes) a profile directory. When both removals succeed
     * the live directories are those before the request plus the parents
     * `makedirs` had to create, so exactly those before when the parents
     * were already there.
     */
    method Convert(req: Request, env: Env, workId: string, profileId: string,
                   removeWorkOk: bool, removeProfileOk: bool)
      returns (resp: Response)
      requires IsUuidText(workId) && IsUuidText(profileId)
      requires WorkDir(workId) !in live && ProfileDir(profileId) !in live
      modifies this
      ensures resp == Handle(req, env, WorkDir(workId))
      ensures var document := Invoked(req, env) == Some(LibreOffice);
              live == old(live) + {UploadFolder}
                                + (if removeWorkOk then {} else {WorkDir(workId)})
                                + (if document then {ProfileParent} else {})
                                + (if document && !removeProfileOk then {ProfileDir(profileId)} else {})
      ensures var made := old(log) + Missing(UploadFolder, old(live)) + [Created(WorkDir(workId))];
              var served := if Invoked(req, env) == Some(LibreOffice)
                            then made + Missing(ProfileParent, old(live)) + Lifecycle(ProfileDir(profileId), removeProfileOk)
                            else made;
              log == served + if removeWorkOk then [Removed(WorkDir(workId))] else []
      ensures removeWorkOk ==> WorkDir(workId) !in live
      ensures removeWorkOk && removeProfileOk && UploadFolder in old(live) && ProfileParent in old(live)
              ==> live == old(live)
    {
      var work := WorkDir(workId);
      assert && IsChild(work, UploadFolder) && work != UploadFolder
             && work != ProfileParent && work != ProfileDir(profileId)
             && ProfileDir(profileId) != UploadFolder && UploadFolder != ProfileParent by {
        WorkDirShape(workId);
        UuidIsName(workId);
        ChildOf(UploadFolder, workId);
        DirectoriesDistinct(workId, workId, profileId);
      }
      ghost var live0, log0 := live, log;
      MakeDirs(work, UploadFolder);
      ghost var live1, log1 := live, log;
      resp := Serve(req, env, work, profileId, removeProfileOk);
      ghost var live2, log2 := live, log;
      assert work in live;
      if work in live {
        RemoveTree(work, removeWorkOk);
      }
      RequestFrame(live0, live1, live2, live, log0, log1, log2, log, work, ProfileDir(profileId),
                   Invoked(req, env) == Some(LibreOffice), removeWorkOk, removeProfileOk);
    }

    /**
     * The `try` block of `convert_file` with its `except` clauses, run in
     * the working directory `work`: its response is `Handle`'s, and it
     * touches no directory but the LibreOffice profile and its parent.
     */
    method Serve(req: Request, env: Env, work: string, profileId: string, removeProfileOk: bool)
      returns (resp: Response)
      requires IsUuidText(profileId)
      requires ProfileDir(profileId) !in live
      modifies this
      ensures resp == Handle(req, env, work)
      ensures var document := Invoked(req, env) == Some(LibreOffice);
              live == old(live) + (if document then {ProfileParent} else {})
                                + (if document && !removeProfileOk then {ProfileDir(profileId)} else {})
      ensures log == if Invoked(req, env) == Some(LibreOffice)
                     then old(log) + Missing(ProfileParent, old(live)) + Lifecycle(ProfileDir(profileId), removeProfileOk)
                     else old(log)
    {
      if req.file.None? || req.targetFormat.None? {
        resp := Json(400, MissingPartsMessage);
        UnselectedResponse(req, env, work);
        return;
      }
      var filename := req.file.value.filename;
      var targetFormat := Lower(req.targetFormat.value);
      if filename == [] {
        resp := Json(400, NoFileMessage);
        UnselectedResponse(req, env, work);
        return;
      }
      var originalExt := SourceExtension(filename);
      var inputPath := Join(work, env.secureFilename(filename));
      if env.saveError.Some? {
        resp := Json(500, FailedPrefix + env.saveError.value);
        SaveErrorResponse(req, env, work);
        return;
      }
      var isDocument := originalExt in DocumentTypes || targetFormat in DocumentTypes;
      var isMedia := originalExt in MediaTypes || targetFormat in MediaTypes;
      DocumentTakesPrecedence(originalExt, targetFormat);
      MediaOnlyWithoutDocument(originalExt, targetFormat);
      var converted: Result<string>;
      var tool: Tool;
      if isDocument {
        tool := LibreOffice;
        assert Invoked(req, env) == Some(tool);
        converted := ConvertDocument(inputPath, work, targetFormat, profileId, env.run, removeProfileOk);
      } else if isMedia {
        tool := FFmpeg;
        assert Invoked(req, env) == Some(tool);
        converted := ConvertMedia(inputPath, work, targetFormat, env.run);
      } else {
        resp := Json(400, UnsupportedMessage(originalExt, targetFormat));
        UnsupportedResponse(req, env, work);
        return;
      }
      InvokedResponse(req, env, work, tool);
      CaughtOutcome(converted, DownloadName(req), env.pathExists);
      match converted {
        case Ok(path) =>
          if path != [] && env.pathExists(path) {
            resp := Attachment(path, Root(filename) + "." + targetFormat);
          } else {
            resp := Json(500, MissingOutputMessage);
          }
        case Err(TimeoutExpired) =>
          resp := Json(504, TimeoutMessage);
        case Err(Error(message)) =>
          resp := Json(500, FailedPrefix + message);
      }
    }
  }
}
